=== FILE: README.md ===
# JMVUtils helpers, modelled in Dafny

Weasis's `JMVUtils` is a class of static helpers for its Swing user
interface. Most of it only passes values to Swing. This project models the
helpers that compute something: Boolean coercions, integer parsing with a
fallback, the blank-text test, counting the image tiles a rectangle touches,
window-centring arithmetic, the spinner's initial-value clamp, the
longest-side function, combo-box population, duplicate-free listener
registration, column-name extraction, null-guarded menu insertion and the
three-tier class-loader resource lookup.

Every widget is replaced by the plain data the helper reads or writes. A
combo box becomes its item list. A slider becomes its change-listener list,
in registration order.
A menu becomes its list of children. A table model becomes its column count
and a naming function. A class loader becomes its `getResource` lookup. A
Java `null` is `None`. An exception that ends an operation is `None` as a
result.

Several Java semantics are written out because Dafny's integers are
unbounded and its division is Euclidean:

- `int` wrap-around (`Wrap32`);
- truncating division (`JavaDiv`);
- `Integer.parseInt`, including the JDK's own overflow-checking loop;
- `String.trim`;
- the overflow-tolerant `java.awt.Rectangle.intersects`.

The tiled image (`PlanarImage`) is not part of this model. It enters as its
tile-index ranges (`TileGrid`), a function giving the rectangle of each tile,
and a function giving the top of a tile row.

Files:

- `wrappers.dfy`: `Option`.
- `java_lang.dfy`: module `JavaLang`, the int and String semantics.
- `awt.dfy`: module `Awt`, the point, dimension and rectangle types, `Rectangle.intersects`, and centring.
- `tiles.dfy`: module `Tiles`, tile counting.
- `jmv_utils.dfy`: module `JMVUtils`, the other helpers.

## Model

| member | source | states |
|---|---|---|
| JMVUtils.NullToFalse | weasis-core/weasis-core-api/src/main/java/org/weasis/core/api/gui/util/JMVUtils.java:80-82 | true exactly for a Boolean holding true; `null` and non-Booleans give false |
| JMVUtils.NullToTrue | weasis-core/weasis-core-api/src/main/java/org/weasis/core/api/gui/util/JMVUtils.java:84-89 | false exactly for a Boolean holding false; `null` and non-Booleans give true |
| JMVUtils.NullCoercionsAgreeOnBooleans | weasis-core/weasis-core-api/src/main/java/org/weasis/core/api/gui/util/JMVUtils.java:80-89 | the two coercions agree iff the value is a Boolean, and getNULLtoFalse implies getNULLtoTrue |
| Tiles.NumberOfInvolvedTiles | weasis-core/weasis-core-api/src/main/java/org/weasis/core/api/gui/util/JMVUtils.java:91-104 | the nested loops, with int bounds and an int counter, return the wrapped row-by-row count; on a well-formed grid whose tile count is an int, the result is the number of grid cells whose tile meets the bound, lies in `0 .. numXTiles*numYTiles`, and is `numXTiles*numYTiles` for a `null` bound |
| Tiles.InvolvedTilesCount | weasis-core/weasis-core-api/src/main/java/org/weasis/core/api/gui/util/JMVUtils.java:91-104 | on a well-formed grid, the count equals the size of the set of involved cells, is at most the number of tiles, and with no bound counts every tile |
| Tiles.GridCountIsCardinality | weasis-core/weasis-core-api/src/main/java/org/weasis/core/api/gui/util/JMVUtils.java:96-102 | counting row by row, column by column, finds exactly the cells of the index rectangle that satisfy the test |
| Tiles.RowCountIsCardinality | weasis-core/weasis-core-api/src/main/java/org/weasis/core/api/gui/util/JMVUtils.java:97-101 | counting one row left to right finds exactly the columns that satisfy the test |
| Tiles.GridCount | weasis-core/weasis-core-api/src/main/java/org/weasis/core/api/gui/util/JMVUtils.java:96-102 | the row-by-row count never exceeds the number of cells in the index rectangle |
| Tiles.RowCount | weasis-core/weasis-core-api/src/main/java/org/weasis/core/api/gui/util/JMVUtils.java:97-101 | the column loop's count of involved tiles in a row is a natural number no larger than the number of columns scanned |
| Tiles.GridCountAll | weasis-core/weasis-core-api/src/main/java/org/weasis/core/api/gui/util/JMVUtils.java:98 | when every cell passes (the `bound == null` case), the count is width times height of the index range |
| Tiles.CountRowTiles | weasis-core/weasis-core-api/src/main/java/org/weasis/core/api/gui/util/JMVUtils.java:97-101 | the column loop of one row adds that row's involved-tile count to the int counter, with wrap-around |
| Tiles.NumberOfInvolvedTilesOnXaxis | weasis-core/weasis-core-api/src/main/java/org/weasis/core/api/gui/util/JMVUtils.java:106-118 | only the tiles of the first tile row are compared with a copy of the area moved to that row's top; when the column count is non-negative and the column range ends inside the int range, the result is the number of involved tiles of the row, in `0 .. numXTiles`; the rows are not constrained |
| Awt.Intersects | weasis-core/weasis-core-api/src/main/java/org/weasis/core/api/gui/util/JMVUtils.java:98 | `Rectangle.intersects` (also called at line 113) holds exactly when both rectangles are non-empty and overlap with edges computed exactly; it never reports an empty rectangle as meeting another, and on each axis each rectangle's far edge, when it does not wrap, lies past the other's near edge |
| Awt.IntersectsIffOverlaps | weasis-core/weasis-core-api/src/main/java/org/weasis/core/api/gui/util/JMVUtils.java:98 | `Rectangle.intersects`, with its wrapped far edges, holds iff both rectangles are non-empty and overlap when computed exactly |
| Awt.IntersectsSymmetric | weasis-core/weasis-core-api/src/main/java/org/weasis/core/api/gui/util/JMVUtils.java:113 | which rectangle is the receiver of `intersects` does not matter |
| JavaLang.Wrap32Increment | weasis-core/weasis-core-api/src/main/java/org/weasis/core/api/gui/util/JMVUtils.java:99 | incrementing a wrapped int counter equals wrapping the exact successor, so `nbTiles++` ends at the wrapped exact count |
| JavaLang.Inc32 | weasis-core/weasis-core-api/src/main/java/org/weasis/core/api/gui/util/JMVUtils.java:99 | `++` on an int is the wrapped exact successor: `Integer.MAX_VALUE` goes to `Integer.MIN_VALUE` |
| JavaLang.Wrap32 | weasis-core/weasis-core-api/src/main/java/org/weasis/core/api/gui/util/JMVUtils.java:92-93 | an int expression's value is congruent to its exact value modulo 2^32, equal to it when in range, and shifted by 2^32 on a single overflow |
| JavaLang.JavaDiv | weasis-core/weasis-core-api/src/main/java/org/weasis/core/api/gui/util/JMVUtils.java:147-148 | Java's `/` truncates toward zero: the remainder is in `[0, b)` for non-negative dividends and in `(-b, 0]` for negative ones |
| Awt.CenteredStart | weasis-core/weasis-core-api/src/main/java/org/weasis/core/api/gui/util/JMVUtils.java:147-148 | `origin + (outer - inner) / 2` in int arithmetic; without overflow the two margins differ by at most one, with the odd unit after a window that fits and before one that does not |
| JMVUtils.CenterOnScreen | weasis-core/weasis-core-api/src/main/java/org/weasis/core/api/gui/util/JMVUtils.java:142-153 | when the screen bounds are available, the window is centred on both axes (absent overflow); when querying them throws, the window keeps its location |
| JMVUtils.CenterOnParent | weasis-core/weasis-core-api/src/main/java/org/weasis/core/api/gui/util/JMVUtils.java:155-165 | a `null` parent falls back to screen centring; otherwise the window is centred on the parent's on-screen bounds (absent overflow) |
| JMVUtils.ColumnNames | weasis-core/weasis-core-api/src/main/java/org/weasis/core/api/gui/util/JMVUtils.java:187-196 | a `null` model gives no names; a negative column count fails; otherwise the result has one entry per column, entry `i` being column `i`'s name |
| JMVUtils.AddEach | weasis-core/weasis-core-api/src/main/java/org/weasis/core/api/gui/util/JMVUtils.java:203-205 | adding items one by one puts them after the existing items, in order |
| JMVUtils.SetListWithFirst | weasis-core/weasis-core-api/src/main/java/org/weasis/core/api/gui/util/JMVUtils.java:198-206 | the combo holds `first` (when non-null) and then exactly `items`; the previous contents do not survive |
| JMVUtils.SetListWithLast | weasis-core/weasis-core-api/src/main/java/org/weasis/core/api/gui/util/JMVUtils.java:208-216 | the combo holds exactly `items` and then `last` (when non-null); the previous contents do not survive |
| JMVUtils.SetListFromList | weasis-core/weasis-core-api/src/main/java/org/weasis/core/api/gui/util/JMVUtils.java:218-223 | after the index loop, the combo holds exactly the list |
| JMVUtils.AddChangeListener | weasis-core/weasis-core-api/src/main/java/org/weasis/core/api/gui/util/JMVUtils.java:225-233 | the scan leaves the listeners unchanged when the listener is already registered, and otherwise appends exactly that listener |
| JMVUtils.WithListener | weasis-core/weasis-core-api/src/main/java/org/weasis/core/api/gui/util/JMVUtils.java:225-233 | after registration the listener is present, the old list is a prefix, at most one entry is added, and a duplicate-free list stays duplicate-free |
| JMVUtils.WithListenerIdempotent | weasis-core/weasis-core-api/src/main/java/org/weasis/core/api/gui/util/JMVUtils.java:225-233 | registering the same listener twice equals registering it once |
| JMVUtils.InitialValue | weasis-core/weasis-core-api/src/main/java/org/weasis/core/api/gui/util/JMVUtils.java:253 | a `val` below `min` gives `min`; otherwise a `val` above `max` gives `max`; a `val` in `[min, max]` is kept; so the value lies in `[min, max]` when `min <= max` |
| JMVUtils.InitialValueIdempotent | weasis-core/weasis-core-api/src/main/java/org/weasis/core/api/gui/util/JMVUtils.java:253 | for `min <= max`, clamping twice equals clamping once |
| JMVUtils.NumberModel | weasis-core/weasis-core-api/src/main/java/org/weasis/core/api/gui/util/JMVUtils.java:252-253 | a spinner model is built iff `min <= max`; it keeps `min`, `max` and `delta`, and its value is the clamp of `val` to `[min, max]` |
| JMVUtils.MaxLength | weasis-core/weasis-core-api/src/main/java/org/weasis/core/api/gui/util/JMVUtils.java:392-397 | the result is at least the width and at least the height, and is one of them |
| JMVUtils.IntValueFromString | weasis-core/weasis-core-api/src/main/java/org/weasis/core/api/gui/util/JMVUtils.java:399-408 | the signed value of a sign-plus-digits literal that fits in an int; `defaultValue` for `null`, for a non-literal (empty, sign only, non-digit) and for an out-of-range literal |
| JMVUtils.IntValueFromStringRoundTrip | weasis-core/weasis-core-api/src/main/java/org/weasis/core/api/gui/util/JMVUtils.java:399-408 | the decimal text of any int reads back as that int, whatever the default |
| JavaLang.ParseInt | weasis-core/weasis-core-api/src/main/java/org/weasis/core/api/gui/util/JMVUtils.java:403 | `Integer.parseInt` yields a value exactly when the string is present, is an optional sign followed by at least one ASCII decimal digit, and denotes a value in the int range; that value is the literal's, negative only after a `-`, and non-negative without one; `null` yields no value |
| JavaLang.JdkParseInt | weasis-core/weasis-core-api/src/main/java/org/weasis/core/api/gui/util/JMVUtils.java:403 | the JDK's parseInt loop (negative accumulation with the `multmin` and `limit` checks) agrees with the declarative literal-and-range definition on every string |
| JavaLang.ParseIntRoundTrip | weasis-core/weasis-core-api/src/main/java/org/weasis/core/api/gui/util/JMVUtils.java:403 | `parseInt(Integer.toString(n)) == n` for every int `n` |
| JavaLang.NatToDecimal | weasis-core/weasis-core-api/src/main/java/org/weasis/core/api/gui/util/JMVUtils.java:403 | the printed digits of `n` are a non-empty digit string whose value is `n`, without a leading zero |
| JavaLang.JavaTrim | weasis-core/weasis-core-api/src/main/java/org/weasis/core/api/gui/util/JMVUtils.java:411 | `trim()` is a slice of the string outside which every character is `<= ' '`; it is empty iff every character is `<= ' '`, and otherwise it starts and ends with a character above `' '` |
| JavaLang.LeadingBlanksEnd | weasis-core/weasis-core-api/src/main/java/org/weasis/core/api/gui/util/JMVUtils.java:411 | `trim()`'s first loop stops at the first character above the space, or at the end, having passed only characters at or below the space |
| JavaLang.TrailingBlanksStart | weasis-core/weasis-core-api/src/main/java/org/weasis/core/api/gui/util/JMVUtils.java:411 | `trim()`'s second loop stops just after the last character above the space, or at the start index, having passed only characters at or below the space |
| JavaLang.JavaTrimIdempotent | weasis-core/weasis-core-api/src/main/java/org/weasis/core/api/gui/util/JMVUtils.java:411 | trimming twice equals trimming once |
| JMVUtils.TextHasContent | weasis-core/weasis-core-api/src/main/java/org/weasis/core/api/gui/util/JMVUtils.java:410-412 | true iff the text is non-null and holds some character above `' '`; so false for `null`, `""` and all-blank text |
| JMVUtils.ResourceURL | weasis-core/weasis-core-api/src/main/java/org/weasis/core/api/gui/util/JMVUtils.java:503-521 | the class loader's answer if it has one; otherwise the context loader's answer if it has one; otherwise the system lookup's. Missing classes or loaders are skipped. The result is `null` iff all three find nothing |
| JMVUtils.AddItemToMenu | weasis-core/weasis-core-api/src/main/java/org/weasis/core/api/gui/util/JMVUtils.java:523-533 | nothing changes unless both menu and item are non-null; then the item is the last child and occurs once, every other child keeps its multiplicity and relative order |
| JMVUtils.AddItemToMenuIdempotent | weasis-core/weasis-core-api/src/main/java/org/weasis/core/api/gui/util/JMVUtils.java:523-533 | adding the same item twice leaves the menu as adding it once |

Notes on the model:

- `Rectangle.intersects`, `Integer.parseInt`, `Integer.toString`,
  `String.trim`, `Container.add` and the `SpinnerNumberModel` constructor
  belong to the Java platform. They are modelled here from the JDK's
  implementation.
- The tile bounds and the `null`-bound count are proved for well-formed
  grids. A well-formed grid has non-negative tile counts and index ranges
  that end inside the int range, as an image's grid does. The methods
  themselves model any grid, including ones whose range ends wrap.
- Clamping is not idempotent when `min > max`. The clamp then gives `min`
  when `val < min` and `max` otherwise, and a second clamp swaps the two.
  The source never keeps such a value, because the spinner model's
  constructor then throws.
- Adding a child the menu already holds moves that child to the end. This
  follows from `Container.add`, which first removes a component from its
  current parent.

## Left out

- Widget side effects with no algorithm of their own: `setVisible`, `setPreferredWidth`, `setPreferredHeight`, `formatTableHeaders`, `menuItem`, `addCheckAction`, `formatCheckAction`, the key binding part of `setNumberModel`, and `addTooltipToComboList`.
- `getFormattedValue`: it depends on the commit and formatter internals of `JFormattedTextField`.
- `getSmallIconButtonSize`, `getBigIconButtonSize` and `getBigIconToogleButtonSize`: constant lookups on the global look-and-feel.
- `addStylesToDocument`: styled-document attribute plumbing.
- `getComplementaryColor`: floating-point HSB conversion.
- `getValueRGBasText` and `getValueRGBasText2`: string concatenation over `Color` getters.
- `OpenInDefaultBrowser` and `buildHyperlinkListener`: process launch, the desktop API, dialogs and OS detection.
- `getResource` and `getResourceAsStream`: URL printing and stream I/O on top of `getResourceURL`.
- The `UIManager` colour constants `TREE_BACKROUND` and `TREE_SELECTION_BACKROUND`.
- JavaLang.ParseInt: counts only the ASCII digits `0`..`9` as decimal digits. Java's `Integer.parseInt` also accepts other Unicode decimal digits, such as U+0660..U+0669, so for such strings the model gives no value where Java returns one.
- JavaLang.JdkParseInt: accepts ASCII digits only. Java's `Character.digit` also accepts other Unicode decimal digits, such as U+0660..U+0669, so for such strings the model fails where Java would parse.
- JMVUtils.IntValueFromString: inherits the ASCII-only digits of the parse, so for strings of other Unicode decimal digits it returns the default where Java returns the parsed value.
- JMVUtils.ColumnNames: column names are plain strings, so a `null` name is not distinguished.
- JMVUtils.SetListWithFirst: the combo's selected item is not modelled. `addItem` selects an item only when the list has just become one element long and that element is non-null, so `[null, a]` leaves nothing selected. This also applies to the other two `setList` overloads.
- JMVUtils.CenterOnParent: `getLocationOnScreen` throws when the parent is not showing. This exception is not caught in the source, and the model takes the parent's location as given.
- JMVUtils.CenterOnScreen: the centring property is stated only when no int step overflows. When a step does overflow, the model computes the wrapped position but promises nothing about it.
- JMVUtils.CenterOnParent: like CenterOnScreen, the centring property is stated only when no int step overflows. On overflow it gives the wrapped position with no promise about it.
- `null` arguments that make the source throw NullPointerException are not modelled. These are: the `jComboBox`, `items` array and `list` of `setList`; the `slider` of `addChangeListener`; the `window` of `showCenterScreen`; the `bounds` of `getMaxLength`; the `area` of `getNumberOfInvolvedTilesOnXaxis`; the `resource` of `getResourceURL`; the `spin` of `setNumberModel`; and the image of both tile counts.
- JMVUtils.AddChangeListener: a `null` listener is not modelled. In Java the scan finds no match, and `EventListenerList.add` ignores `null`, so the list stays unchanged. The model's listener is always a value, so it would append it.
- JMVUtils.AddItemToMenu: only the target menu is modelled. `Container.add` first removes the item from whatever parent it had, so another menu holding it loses it, and the model does not show that. For the `Component` overload, `Container.add` also throws IllegalArgumentException when the component is a window or an ancestor of the popup menu. The model always returns the updated menu.
- JavaLang.JavaDiv: covers positive divisors only. The source divides only by 2, and `parseInt` only by 10.

=== FILE: awt.dfy ===
/** The value types of java.awt that JMVUtils reads and writes, with their
    `int` fields, and the geometry the helpers compute on them. */
module Awt {
  import opened JavaLang

  datatype Point = Point(x: Int32, y: Int32)

  datatype Dimension = Dimension(width: Int32, height: Int32)

  datatype Rectangle = Rectangle(x: Int32, y: Int32, width: Int32, height: Int32)

  // ---------------------------------------------------------------------
  // Rectangle.intersects
  // ---------------------------------------------------------------------

  /** One axis of `Rectangle.intersects`: each far edge `origin + length`
      is computed in int arithmetic, and an edge that wrapped below its own
      origin counts as lying beyond every coordinate. */
  predicate AxisIntersects(tx: Int32, tw: Int32, rx: Int32, rw: Int32) {
    var rEnd := Wrap32(rx + rw);
    var tEnd := Wrap32(tx + tw);
    (rEnd < rx || rEnd > tx) && (tEnd < tx || tEnd > rx)
  }

  /** `t.intersects(r)` as java.awt.Rectangle computes it: false when either
      rectangle is empty (a width or height `<= 0`), otherwise the overflow-
      tolerant edge comparisons on both axes. Whatever int overflow the far
      edges suffer, it holds exactly when the rectangles overlap; in
      particular an empty rectangle meets nothing, and on each axis an
      unwrapped far edge lies past the other rectangle's near edge. */
  predicate Intersects(t: Rectangle, r: Rectangle)
    ensures Intersects(t, r) <==> Overlaps(t, r)
    ensures Intersects(t, r) ==> t.width > 0 && t.height > 0 && r.width > 0 && r.height > 0
    ensures Intersects(t, r) ==> InInt32(r.x + r.width) ==> r.x + r.width > t.x
    ensures Intersects(t, r) ==> InInt32(t.x + t.width) ==> t.x + t.width > r.x
    ensures Intersects(t, r) ==> InInt32(r.y + r.height) ==> r.y + r.height > t.y
    ensures Intersects(t, r) ==> InInt32(t.y + t.height) ==> t.y + t.height > r.y
  {
    if r.width <= 0 || r.height <= 0 || t.width <= 0 || t.height <= 0 then false
    else AxisIntersects(t.x, t.width, r.x, r.width) && AxisIntersects(t.y, t.height, r.y, r.height)
  }

  /** The geometric meaning: both rectangles are non-empty and their
      interiors share a point, with edges computed exactly. */
  predicate Overlaps(t: Rectangle, r: Rectangle) {
    && t.width > 0 && t.height > 0 && r.width > 0 && r.height > 0
    && r.x < t.x + t.width && t.x < r.x + r.width
    && r.y < t.y + t.height && t.y < r.y + r.height
  }

  /** `Rectangle.intersects` holds exactly when the two rectangles overlap,
      whatever int overflow their far edges suffer. */
  lemma IntersectsIffOverlaps(t: Rectangle, r: Rectangle)
    ensures Intersects(t, r) <==> Overlaps(t, r)
  {
  }

  /** Consequently the test does not depend on which rectangle is `this`. */
  lemma IntersectsSymmetric(t: Rectangle, r: Rectangle)
    ensures Intersects(t, r) <==> Intersects(r, t)
  {
  }

  // ---------------------------------------------------------------------
  // Centring one span inside another
  // ---------------------------------------------------------------------

  /** Where a span of length `inner` starts when centred in the span of
      length `outer` that starts at `origin`, computed as Java computes
      `origin + (outer - inner) / 2` on ints. When no step overflows, the
      two margins left around the inner span differ by at most one unit:
      truncating division puts the odd unit after a span that fits and
      before one that sticks out. */
  function CenteredStart(origin: Int32, outer: Int32, inner: Int32): (c: Int32)
    ensures NoCenteringOverflow(origin, outer, inner) ==> Centered(origin, outer, c, inner)
  {
    Wrap32(origin + JavaDiv(Wrap32(outer - inner), 2))
  }

  /** The int steps of `CenteredStart` stay in range. */
  predicate NoCenteringOverflow(origin: int, outer: int, inner: int) {
    InInt32(outer - inner) && InInt32(origin + JavaDiv(outer - inner, 2))
  }

  /** `[start, start + inner)` sits in the middle of `[origin, origin + outer)`:
      the leading margin is the trailing one or one more than it when the
      inner span is longer (both margins negative), and the trailing one
      or one less than it otherwise. */
  predicate Centered(origin: int, outer: int, start: int, inner: int) {
    var lead := start - origin;
    var trail := (origin + outer) - (start + inner);
    if inner <= outer then lead <= trail <= lead + 1 else trail <= lead <= trail + 1
  }
}

=== FILE: java_lang.dfy ===
/** The parts of the Java platform's `int` and `String` semantics that the
    helpers of JMVUtils depend on: 32-bit two's-complement wrap-around,
    division that truncates toward zero, `Integer.parseInt` and
    `String.trim`. */
module JavaLang {
  import opened Wrappers

  const INT_MIN: int := -0x8000_0000
  const INT_MAX: int := 0x7FFF_FFFF
  const TWO_32: int := 0x1_0000_0000

  /** The values a Java `int` can hold. */
  type Int32 = x: int | -0x8000_0000 <= x <= 0x7FFF_FFFF

  predicate InInt32(x: int) {
    INT_MIN <= x <= INT_MAX
  }

  function Abs(x: int): nat {
    if x < 0 then -x else x
  }

  // ---------------------------------------------------------------------
  // int arithmetic
  // ---------------------------------------------------------------------

  /** The `int` that a Java expression whose mathematical value is `x`
      evaluates to: the representative of `x` modulo 2^32 in int range. */
  function Wrap32(x: int): (r: Int32)
    ensures (x - r) % TWO_32 == 0
    ensures InInt32(x) ==> r == x
    ensures INT_MAX < x <= INT_MAX + TWO_32 ==> r == x - TWO_32
    ensures INT_MIN - TWO_32 <= x < INT_MIN ==> r == x + TWO_32
  {
    (x - INT_MIN) % TWO_32 + INT_MIN
  }

  /** `i++` on a Java int: the successor, except that `Integer.MAX_VALUE`
      wraps to `Integer.MIN_VALUE`. */
  function Inc32(n: Int32): (r: Int32)
    ensures r == Wrap32(n + 1)
  {
    if n == INT_MAX then INT_MIN else n + 1
  }

  /** Incrementing a wrapped counter is wrapping the exact successor, so a
      counter incremented with `++` ends at the wrapped exact count. */
  lemma Wrap32Increment(k: int)
    ensures Inc32(Wrap32(k)) == Wrap32(k + 1)
  {
  }

  /** Java's integer `/` by a positive divisor: the quotient rounded toward
      zero, so that the remainder `a - q * b` lies in `[0, b)` for `a >= 0`
      and in `(-b, 0]` for `a < 0` (Dafny's own `/` rounds toward negative
      infinity for a negative `a`). JMVUtils and `Integer.parseInt` only
      divide by the constants 2 and 10. */
  function JavaDiv(a: int, b: int): (q: int)
    requires b > 0
    ensures a >= 0 ==> 0 <= a - q * b < b
    ensures a < 0 ==> -b < a - q * b <= 0
  {
    var m := Abs(a) / b;
    assert Abs(a) == m * b + Abs(a) % b;
    if a >= 0 then m else -m
  }

  // ---------------------------------------------------------------------
  // Integer.parseInt (radix 10)
  // ---------------------------------------------------------------------

  predicate IsDigit(c: char) {
    '0' <= c <= '9'
  }

  predicate AllDigits(s: string) {
    forall i :: 0 <= i < |s| ==> IsDigit(s[i])
  }

  predicate IsSign(c: char) {
    c == '-' || c == '+'
  }

  function DigitValue(c: char): (d: nat)
    requires IsDigit(c)
    ensures d <= 9
  {
    c as int - '0' as int
  }

  function Digit(d: nat): (c: char)
    requires d <= 9
    ensures IsDigit(c) && DigitValue(c) == d
  {
    ('0' as int + d) as char
  }

  /** The value of a string of decimal digits, most significant first. */
  function DecimalValue(s: string): nat
    requires AllDigits(s)
    decreases |s|
  {
    if s == [] then 0 else DecimalValue(s[..|s| - 1]) * 10 + DigitValue(s[|s| - 1])
  }

  /** A prefix of a digit string never has a larger value than the whole. */
  lemma {:induction false} DecimalValuePrefix(s: string, k: nat)
    requires AllDigits(s) && k <= |s|
    ensures AllDigits(s[..k]) && DecimalValue(s[..k]) <= DecimalValue(s)
    decreases |s|
  {
    if k < |s| {
      var init := s[..|s| - 1];
      assert init[..k] == s[..k];
      DecimalValuePrefix(init, k);
    } else {
      assert s[..k] == s;
    }
  }

  /** Index of the first digit: 1 after a leading sign, 0 otherwise. */
  function DigitsStart(t: string): nat {
    if |t| > 0 && IsSign(t[0]) then 1 else 0
  }

  /** An optional `+` or `-` followed by one or more decimal digits. */
  predicate IsDecimalLiteral(t: string) {
    var digits := t[DigitsStart(t)..];
    digits != [] && AllDigits(digits)
  }

  /** The signed value a decimal literal denotes, before any range check. */
  function LiteralValue(t: string): int
    requires IsDecimalLiteral(t)
  {
    var magnitude: int := DecimalValue(t[DigitsStart(t)..]);
    if t[0] == '-' then -magnitude else magnitude
  }

  /** What `Integer.parseInt(s)` returns: `Some(v)` when `s` is a decimal
      literal whose value `v` fits in an int, `None` where it throws
      NumberFormatException (for a `null` string too). */
  function ParseInt(s: Option<string>): (r: Option<Int32>)
    ensures s.None? ==> r.None?
    ensures r.Some? <==> s.Some? && IsDecimalLiteral(s.value) && INT_MIN <= LiteralValue(s.value) <= INT_MAX
    ensures r.Some? ==> r.value == LiteralValue(s.value)
    ensures r.Some? && r.value < 0 ==> s.value[0] == '-'
    ensures r.Some? && s.value[0] != '-' ==> 0 <= r.value
  {
    match s
    case None => None
    case Some(t) =>
      if IsDecimalLiteral(t) && InInt32(LiteralValue(t)) then Some(LiteralValue(t)) else None
  }

  /** `Integer.parseInt` as the JDK implements it: the value is accumulated
      negatively, against `limit` (`-Integer.MAX_VALUE`, or
      `Integer.MIN_VALUE` after a minus sign), and overflow is caught before
      it happens by comparing with `multmin = limit / 10` (truncating). It
      agrees with the declarative `ParseInt` on every string. */
  method JdkParseInt(s: string) returns (r: Option<Int32>)
    ensures r == ParseInt(Some(s))
  {
    var len := |s|;
    if len == 0 {
      return None;
    }
    var negative := false;
    var limit := -INT_MAX;
    var i := 0;
    if s[0] < '0' {
      if s[0] == '-' {
        negative := true;
        limit := INT_MIN;
      } else if s[0] != '+' {
        return None;
      }
      if len == 1 {
        return None;
      }
      i := 1;
    }
    var start := i;
    assert start == DigitsStart(s) && start < len;
    assert negative <==> s[0] == '-';
    var multmin := JavaDiv(limit, 10);
    var result := 0;
    while i < len
      invariant start <= i <= len
      invariant AllDigits(s[start..i])
      invariant result == -(DecimalValue(s[start..i]) as int)
      invariant limit <= result <= 0
    {
      if !IsDigit(s[i]) {
        assert s[start..][i - start] == s[i];
        return None;
      }
      var digit := DigitValue(s[i]);
      DigitStep(s, start, i);
      if result < multmin {
        TruncatedLimit(limit, multmin, -result, digit);
        OverflowRejected(s, start, i + 1);
        return None;
      }
      result := result * 10;
      if result < limit + digit {
        OverflowRejected(s, start, i + 1);
        return None;
      }
      result := result - digit;
      i := i + 1;
    }
    assert s[start..] == s[start..i];
    r := Some(if negative then result else -result);
  }

  /** Reading one more digit multiplies the value so far by ten and adds it. */
  lemma DigitStep(s: string, start: nat, i: nat)
    requires start <= i < |s| && AllDigits(s[start..i]) && IsDigit(s[i])
    ensures AllDigits(s[start..i + 1])
    ensures DecimalValue(s[start..i + 1]) == DecimalValue(s[start..i]) * 10 + DigitValue(s[i])
  {
    assert s[start..i + 1][..i - start] == s[start..i];
  }

  /** The `multmin` test: a magnitude above `-multmin` cannot take another
      digit without leaving the range that `limit` allows. */
  lemma TruncatedLimit(limit: int, multmin: int, v: int, d: nat)
    requires limit == INT_MIN || limit == -INT_MAX
    requires multmin == JavaDiv(limit, 10)
    requires -v < multmin
    ensures v * 10 + d > -limit
  {
  }

  /** Once the digits read so far exceed the int range, no continuation of
      the string parses. */
  lemma OverflowRejected(s: string, start: nat, j: nat)
    requires start == DigitsStart(s) && start < j <= |s|
    requires AllDigits(s[start..j])
    requires DecimalValue(s[start..j]) > (if s[0] == '-' then -INT_MIN else INT_MAX)
    ensures ParseInt(Some(s)) == None
  {
    var digits := s[start..];
    if IsDecimalLiteral(s) {
      assert digits[..j - start] == s[start..j];
      DecimalValuePrefix(digits, j - start);
    }
  }

  // ---------------------------------------------------------------------
  // Integer.toString, the inverse of parseInt
  // ---------------------------------------------------------------------

  /** The decimal digits of `n`, most significant first, with no leading zero. */
  function NatToDecimal(n: nat): (s: string)
    ensures |s| >= 1 && AllDigits(s) && DecimalValue(s) == n
    ensures s[0] != '0' || n == 0
    decreases n
  {
    if n < 10 then [Digit(n)]
    else
      var init := NatToDecimal(n / 10);
      var s := init + [Digit(n % 10)];
      assert s[..|s| - 1] == init;
      s
  }

  /** `Integer.toString(n)`: a minus sign for negative values, then the digits. */
  function IntToDecimal(n: int): string {
    if n < 0 then "-" + NatToDecimal(-n) else NatToDecimal(n)
  }

  /** Parsing what `Integer.toString` prints gives back the same int. */
  lemma ParseIntRoundTrip(n: Int32)
    ensures ParseInt(Some(IntToDecimal(n))) == Some(n)
  {
  }

  // ---------------------------------------------------------------------
  // String.trim
  // ---------------------------------------------------------------------

  /** First index at or after `st` that holds a character above `' '`,
      or `|s|`: the first loop of `String.trim`. */
  function LeadingBlanksEnd(s: string, st: nat): (k: nat)
    requires st <= |s|
    ensures st <= k <= |s|
    ensures forall i :: st <= i < k ==> s[i] <= ' '
    ensures k == |s| || s[k] > ' '
    decreases |s| - st
  {
    if st < |s| && s[st] <= ' ' then LeadingBlanksEnd(s, st + 1) else st
  }

  /** The end left after dropping the characters `<= ' '` that precede
      `len` but follow `st`: the second loop of `String.trim`. */
  function TrailingBlanksStart(s: string, st: nat, len: nat): (e: nat)
    requires st <= len <= |s|
    ensures st <= e <= len
    ensures forall i :: e <= i < len ==> s[i] <= ' '
    ensures e == st || s[e - 1] > ' '
    decreases len - st
  {
    if st < len && s[len - 1] <= ' ' then TrailingBlanksStart(s, st, len - 1) else len
  }

  /** `String.trim`: `s` without its leading and trailing characters whose
      code is at most that of the space character, that is a slice of `s`
      outside which every character is such a character. The result is empty
      exactly when every character of `s` is such a character; otherwise it
      starts and ends with a character above `' '`. */
  function JavaTrim(s: string): (r: string)
    ensures r != [] <==> exists i :: 0 <= i < |s| && s[i] > ' '
    ensures r != [] ==> r[0] > ' ' && r[|r| - 1] > ' '
    ensures exists a, b ::
              && 0 <= a <= b <= |s| && r == s[a..b]
              && (forall i :: 0 <= i < a ==> s[i] <= ' ')
              && (forall i :: b <= i < |s| ==> s[i] <= ' ')
    ensures |r| <= |s|
  {
    var st := LeadingBlanksEnd(s, 0);
    var len := TrailingBlanksStart(s, st, |s|);
    if st < len then
      assert s[st..len][0] == s[st];
      s[st..len]
    else
      assert forall i :: 0 <= i < |s| ==> s[i] <= ' ';
      assert s[0..0] == [];
      []
  }

  /** Trimming a trimmed string changes nothing. */
  lemma JavaTrimIdempotent(s: string)
    ensures JavaTrim(JavaTrim(s)) == JavaTrim(s)
  {
  }
}

=== FILE: jmv_utils.dfy ===
/** The static helpers of the JMVUtils class that carry logic of their own,
    with every Swing/AWT object reduced to the plain data the helper reads
    or writes: a combo box to its item list, a slider to its change
    listeners, a menu to its children, a table model to its column count and
    names, a class loader to its resource lookup. Tile counting lives in
    module Tiles. */
module JMVUtils {
  import opened Wrappers
  import opened JavaLang
  import opened Awt

  // ---------------------------------------------------------------------
  // getNULLtoFalse / getNULLtoTrue
  // ---------------------------------------------------------------------

  /** A Java object as far as the coercions can tell: a `Boolean`, or an
      object of another class (told apart by an identity). */
  datatype Obj = BooleanObj(booleanValue: bool) | OtherObj(id: nat)

  /** `getNULLtoFalse(val)`, that is `Boolean.TRUE.equals(val)`: true only
      for a Boolean holding true, so `null` and non-Booleans read as false. */
  function NullToFalse(val: Option<Obj>): (r: bool)
    ensures r <==> val.Some? && val.value.BooleanObj? && val.value.booleanValue
  {
    Some(BooleanObj(true)) == val
  }

  /** `getNULLtoTrue(val)`: a Boolean's own value, true for `null` and for
      every non-Boolean; so false only for a Boolean holding false. */
  function NullToTrue(val: Option<Obj>): (r: bool)
    ensures !r <==> val == Some(BooleanObj(false))
  {
    match val
    case Some(BooleanObj(b)) => b
    case _ => true
  }

  /** The two coercions agree exactly on Booleans; elsewhere one says false
      and the other true, so the first never exceeds the second. */
  lemma NullCoercionsAgreeOnBooleans(val: Option<Obj>)
    ensures NullToFalse(val) == NullToTrue(val) <==> val.Some? && val.value.BooleanObj?
    ensures NullToFalse(val) ==> NullToTrue(val)
  {
  }

  // ---------------------------------------------------------------------
  // getIntValueFromString / textHasContent
  // ---------------------------------------------------------------------

  /** `getIntValueFromString(value, defaultValue)`: the int that
      `Integer.parseInt` reads from `value`, or `defaultValue` when `value`
      is `null` or parsing throws. */
  function IntValueFromString(value: Option<string>, defaultValue: Int32): (r: Int32)
    ensures value.None? ==> r == defaultValue
    ensures value.Some? && !IsDecimalLiteral(value.value) ==> r == defaultValue
    ensures value.Some? && IsDecimalLiteral(value.value) && !InInt32(LiteralValue(value.value)) ==> r == defaultValue
    ensures value.Some? && IsDecimalLiteral(value.value) && InInt32(LiteralValue(value.value)) ==> r == LiteralValue(value.value)
  {
    ParseInt(value).GetOr(defaultValue)
  }

  /** A printed int always reads back as itself, whatever the default. */
  lemma IntValueFromStringRoundTrip(n: Int32, defaultValue: Int32)
    ensures IntValueFromString(Some(IntToDecimal(n)), defaultValue) == n
  {
  }

  /** `textHasContent(aText)`: `aText` is not `null` and does not trim to the
      empty string, that is, it holds a character above `' '`. */
  function TextHasContent(aText: Option<string>): (r: bool)
    ensures r <==> aText.Some? && exists i :: 0 <= i < |aText.value| && aText.value[i] > ' '
  {
    aText.Some? && JavaTrim(aText.value) != ""
  }

  // ---------------------------------------------------------------------
  // showCenterScreen
  // ---------------------------------------------------------------------

  datatype Window = Window(location: Point, size: Dimension)

  /** A parent component: its location on screen and its size. */
  datatype Parent = Parent(locationOnScreen: Point, size: Dimension)

  /** The location `showCenterScreen(window)` gives the window. `screen` is
      the default screen's bounds, or `None` where asking the graphics
      environment for them throws; the exception is printed and the window
      keeps its location. */
  function CenterOnScreen(w: Window, screen: Option<Rectangle>): (p: Point)
    ensures screen.None? ==> p == w.location
    ensures screen.Some? && NoCenteringOverflow(screen.value.x, screen.value.width, w.size.width) ==>
      Centered(screen.value.x, screen.value.width, p.x, w.size.width)
    ensures screen.Some? && NoCenteringOverflow(screen.value.y, screen.value.height, w.size.height) ==>
      Centered(screen.value.y, screen.value.height, p.y, w.size.height)
  {
    match screen
    case None => w.location
    case Some(b) => Point(CenteredStart(b.x, b.width, w.size.width), CenteredStart(b.y, b.height, w.size.height))
  }

  /** The location `showCenterScreen(window, parent)` gives the window:
      centred on the screen for a `null` parent, centred on the parent
      otherwise. */
  function CenterOnParent(w: Window, parent: Option<Parent>, screen: Option<Rectangle>): (p: Point)
    ensures parent.None? ==> p == CenterOnScreen(w, screen)
    ensures parent.Some? && NoCenteringOverflow(parent.value.locationOnScreen.x, parent.value.size.width, w.size.width) ==>
      Centered(parent.value.locationOnScreen.x, parent.value.size.width, p.x, w.size.width)
    ensures parent.Some? && NoCenteringOverflow(parent.value.locationOnScreen.y, parent.value.size.height, w.size.height) ==>
      Centered(parent.value.locationOnScreen.y, parent.value.size.height, p.y, w.size.height)
  {
    match parent
    case None => CenterOnScreen(w, screen)
    case Some(q) =>
      Point(CenteredStart(q.locationOnScreen.x, q.size.width, w.size.width),
            CenteredStart(q.locationOnScreen.y, q.size.height, w.size.height))
  }

  // ---------------------------------------------------------------------
  // getColumnNames
  // ---------------------------------------------------------------------

  /** A table model: its column count and the name of each column. */
  datatype TableModel = TableModel(columnCount: Int32, columnName: int -> string)

  /** `getColumnNames(model)`: no names for a `null` model, otherwise the
      name of every column in order. `None` stands for the
      NegativeArraySizeException a negative column count raises. */
  method ColumnNames(model: Option<TableModel>) returns (names: Option<seq<string>>)
    ensures model.None? ==> names == Some([])
    ensures model.Some? && model.value.columnCount < 0 ==> names.None?
    ensures model.Some? && model.value.columnCount >= 0 ==>
      && names.Some?
      && |names.value| == model.value.columnCount
      && forall i :: 0 <= i < |names.value| ==> names.value[i] == model.value.columnName(i)
  {
    if model.None? {
      return Some([]);
    }
    var m := model.value;
    if m.columnCount < 0 {
      return None;
    }
    var result: seq<string> := [];
    var i := 0;
    while i < m.columnCount
      invariant 0 <= i <= m.columnCount
      invariant |result| == i
      invariant forall k :: 0 <= k < i ==> result[k] == m.columnName(k)
    {
      result := result + [m.columnName(i)];
      i := i + 1;
    }
    names := Some(result);
  }

  // ---------------------------------------------------------------------
  // setList
  // ---------------------------------------------------------------------

  /** A combo box, as the ordered list of its items. */
  datatype ComboBox<T> = ComboBox(items: seq<T>)

  /** `removeAllItems()`. */
  function RemoveAllItems<T>(c: ComboBox<T>): ComboBox<T> {
    ComboBox([])
  }

  /** `addItem(x)`. */
  function AddItem<T>(c: ComboBox<T>, x: T): ComboBox<T> {
    ComboBox(c.items + [x])
  }

  /** `addItem` on each of `xs` in turn: the items end up after the
      existing ones, in order. */
  function AddEach<T>(c: ComboBox<T>, xs: seq<T>): (r: ComboBox<T>)
    ensures r.items == c.items + xs
    decreases |xs|
  {
    if xs == [] then c
    else
      var r := AddEach(AddItem(c, xs[0]), xs[1..]);
      assert [xs[0]] + xs[1..] == xs;
      r
  }

  /** `setList(combo, first, items)`: the combo holds `first` (unless it
      is `null`) followed by `items`; nothing it held before survives. */
  function SetListWithFirst<T>(c: ComboBox<T>, first: Option<T>, items: seq<T>): (r: ComboBox<T>)
    ensures |r.items| == |items| + (if first.Some? then 1 else 0)
    ensures first.Some? ==> r.items[0] == first.value && r.items[1..] == items
    ensures first.None? ==> r.items == items
  {
    var cleared := RemoveAllItems(c);
    var started := if first.Some? then AddItem(cleared, first.value) else cleared;
    AddEach(started, items)
  }

  /** `setList(combo, items, last)`: the combo holds `items` followed by
      `last` (unless it is `null`); nothing it held before survives. */
  function SetListWithLast<T>(c: ComboBox<T>, items: seq<T>, last: Option<T>): (r: ComboBox<T>)
    ensures |r.items| == |items| + (if last.Some? then 1 else 0)
    ensures r.items[..|items|] == items
    ensures last.Some? ==> r.items[|items|] == last.value
  {
    var filled := AddEach(RemoveAllItems(c), items);
    if last.Some? then AddItem(filled, last.value) else filled
  }

  /** `setList(combo, list)`: the combo holds exactly the list's elements,
      added by index from 0 to `size() - 1`. */
  method SetListFromList<T>(c: ComboBox<T>, list: seq<T>) returns (r: ComboBox<T>)
    ensures r.items == list
  {
    r := RemoveAllItems(c);
    var i := 0;
    while i < |list|
      invariant 0 <= i <= |list|
      invariant r.items == list[..i]
    {
      r := AddItem(r, list[i]);
      i := i + 1;
    }
    assert list[..i] == list;
  }

  // ---------------------------------------------------------------------
  // addChangeListener
  // ---------------------------------------------------------------------

  predicate NoDuplicates<L(==)>(s: seq<L>) {
    forall i, j :: 0 <= i < j < |s| ==> s[i] != s[j]
  }

  /** The listener list after registering `l` without duplicates: it holds
      `l`, keeps the old list as a prefix, grows by at most one, and keeps
      a duplicate-free list duplicate-free. */
  function WithListener<L(==)>(listeners: seq<L>, l: L): (r: seq<L>)
    ensures l in r
    ensures listeners <= r && |r| <= |listeners| + 1
    ensures NoDuplicates(listeners) ==> NoDuplicates(r)
  {
    if l in listeners then listeners else listeners + [l]
  }

  /** Registering the same listener twice is registering it once. */
  lemma WithListenerIdempotent<L>(listeners: seq<L>, l: L)
    ensures WithListener(WithListener(listeners, l), l) == WithListener(listeners, l)
  {
  }

  /** `addChangeListener(slider, listener)`: the slider's listeners are
      scanned for `listener` by reference; if it is there nothing changes,
      otherwise it is registered. The sequence holds the listeners in
      registration order, so registering appends; `getChangeListeners()`
      reports them most recent first, which does not matter here because
      the outcome depends only on membership. */
  method AddChangeListener<L(==)>(listeners: seq<L>, listener: L) returns (r: seq<L>)
    ensures listener in listeners ==> r == listeners
    ensures listener !in listeners ==> r == listeners + [listener]
    ensures r == WithListener(listeners, listener)
  {
    var i := 0;
    while i < |listeners|
      invariant 0 <= i <= |listeners|
      invariant forall k :: 0 <= k < i ==> listeners[k] != listener
    {
      if listener == listeners[i] {
        return listeners;
      }
      i := i + 1;
    }
    r := listeners + [listener];
  }

  // ---------------------------------------------------------------------
  // setNumberModel
  // ---------------------------------------------------------------------

  datatype SpinnerNumberModel = SpinnerNumberModel(value: Int32, minimum: Int32, maximum: Int32, stepSize: Int32)

  /** The initial value `setNumberModel` passes to the spinner model: `val`
      clamped to `[min, max]`. A `val` below `min` gives `min`; otherwise
      a `val` above `max` gives `max`; a `val` in range is kept. So the value
      lies in the range whenever the range is not empty. */
  function InitialValue(val: Int32, min: Int32, max: Int32): (v: Int32)
    ensures val < min ==> v == min
    ensures min <= val && val > max ==> v == max
    ensures min <= val <= max ==> v == val
    ensures min <= max ==> min <= v <= max
  {
    if val < min then min else if val > max then max else val
  }

  /** Clamping a clamped value changes nothing, for a non-empty range. For
      `min > max` it is not idempotent: the clamp gives `min` when
      `val < min` and `max` otherwise, and a second clamp swaps the two. */
  lemma InitialValueIdempotent(val: Int32, min: Int32, max: Int32)
    requires min <= max
    ensures InitialValue(InitialValue(val, min, max), min, max) == InitialValue(val, min, max)
  {
  }

  /** The model `setNumberModel(spin, val, min, max, delta)` installs, or
      `None` where the SpinnerNumberModel constructor throws
      IllegalArgumentException because `min <= value <= max` fails, which
      happens exactly when `min > max`. */
  function NumberModel(val: Int32, min: Int32, max: Int32, delta: Int32): (m: Option<SpinnerNumberModel>)
    ensures m.Some? <==> min <= max
    ensures m.Some? ==>
      && m.value.minimum == min && m.value.maximum == max && m.value.stepSize == delta
      && m.value.value == InitialValue(val, min, max)
      && min <= m.value.value <= max
      && (min <= val <= max ==> m.value.value == val)
  {
    var value := InitialValue(val, min, max);
    if min <= value && value <= max then Some(SpinnerNumberModel(value, min, max, delta)) else None
  }

  // ---------------------------------------------------------------------
  // getMaxLength
  // ---------------------------------------------------------------------

  /** `getMaxLength(bounds)`: the longer side of the rectangle. */
  function MaxLength(bounds: Rectangle): (m: Int32)
    ensures m >= bounds.width && m >= bounds.height
    ensures m == bounds.width || m == bounds.height
  {
    if bounds.width < bounds.height then bounds.height else bounds.width
  }

  // ---------------------------------------------------------------------
  // getResourceURL
  // ---------------------------------------------------------------------

  /** A class loader, as its `getResource` lookup. */
  datatype ClassLoader<U> = ClassLoader(getResource: string -> Option<U>)

  /** A class, as its defining class loader (`null` for the bootstrap loader). */
  datatype Class<U> = Class(classLoader: Option<ClassLoader<U>>)

  /** What an optional loader answers: nothing when the loader is absent. */
  function Ask<U>(loader: Option<ClassLoader<U>>, resource: string): Option<U> {
    match loader
    case None => None
    case Some(l) => l.getResource(resource)
  }

  /** The loader of an optional class. */
  function LoaderOf<U>(c: Option<Class<U>>): Option<ClassLoader<U>> {
    match c
    case None => None
    case Some(k) => k.classLoader
  }

  /** `getResourceURL(resource, c)`: the first answer among the class's
      loader, the current thread's context loader and
      `ClassLoader.getSystemResource`, in that order, a missing class or
      loader being skipped. It finds nothing only when all three find
      nothing. */
  function ResourceURL<U>(resource: string, c: Option<Class<U>>, contextClassLoader: Option<ClassLoader<U>>,
                          systemResource: string -> Option<U>): (url: Option<U>)
    ensures Ask(LoaderOf(c), resource).Some? ==> url == Ask(LoaderOf(c), resource)
    ensures Ask(LoaderOf(c), resource).None? && Ask(contextClassLoader, resource).Some? ==>
      url == Ask(contextClassLoader, resource)
    ensures Ask(LoaderOf(c), resource).None? && Ask(contextClassLoader, resource).None? ==>
      url == systemResource(resource)
    ensures url.None? <==>
      Ask(LoaderOf(c), resource).None? && Ask(contextClassLoader, resource).None? && systemResource(resource).None?
  {
    var fromClass :=
      if c.Some? && c.value.classLoader.Some? then c.value.classLoader.value.getResource(resource) else None;
    var fromContext :=
      if fromClass.None? && contextClassLoader.Some? then contextClassLoader.value.getResource(resource) else fromClass;
    if fromContext.None? then systemResource(resource) else fromContext
  }

  // ---------------------------------------------------------------------
  // addItemToMenu
  // ---------------------------------------------------------------------

  /** A menu or popup menu, as the ordered list of its child components. */
  datatype Menu<C> = Menu(items: seq<C>)

  /** `s` without any occurrence of `x`, the rest in order. */
  function Without<C(==,!new)>(s: seq<C>, x: C): (r: seq<C>)
    ensures forall y :: multiset(r)[y] == if y == x then 0 else multiset(s)[y]
    ensures x !in r
    ensures x !in s ==> r == s
  {
    if s == [] then []
    else
      var rest := Without(s[1..], x);
      assert s == [s[0]] + s[1..];
      if s[0] == x then rest else [s[0]] + rest
  }

  /** Removing `x` from a list that ends in `x` and holds it nowhere else
      leaves the rest. */
  lemma {:induction false} WithoutAppended<C(!new)>(s: seq<C>, x: C)
    requires x !in s
    ensures Without(s + [x], x) == s
  {
    if s != [] {
      assert (s + [x])[1..] == s[1..] + [x];
      WithoutAppended(s[1..], x);
    } else {
      assert [x][1..] == [];
    }
  }

  /** `addItemToMenu(menu, item)`: nothing happens unless both are non-null;
      then the item becomes the menu's last child. A component has one
      parent, so adding a child the menu already holds moves it to the end
      (`Container.add` removes it from its parent first). */
  function AddItemToMenu<C(==,!new)>(menu: Option<Menu<C>>, item: Option<C>): (r: Option<Menu<C>>)
    ensures r.None? <==> menu.None?
    ensures menu.Some? && item.None? ==> r == menu
    ensures menu.Some? && item.Some? ==>
      var x := item.value;
      var rs := r.value.items;
      && |rs| > 0 && rs[|rs| - 1] == x
      && multiset(rs)[x] == 1
      && (forall y :: y != x ==> multiset(rs)[y] == multiset(menu.value.items)[y])
      && Without(rs, x) == Without(menu.value.items, x)
  {
    if menu.Some? && item.Some? then
      var kept := Without(menu.value.items, item.value);
      WithoutAppended(kept, item.value);
      Some(Menu(kept + [item.value]))
    else menu
  }

  /** Adding the same item twice leaves the menu as adding it once. */
  lemma AddItemToMenuIdempotent<C(!new)>(menu: Option<Menu<C>>, item: Option<C>)
    ensures AddItemToMenu(AddItemToMenu(menu, item), item) == AddItemToMenu(menu, item)
  {
  }
}

=== FILE: tiles.dfy ===
/** Counting the tiles of a tiled image that a rectangle touches
    (`getNumberOfInvolvedTiles` and `getNumberOfInvolvedTilesOnXaxis`). The
    image is reduced to its tile-index ranges; the rectangle of tile
    `(ti, tj)` and the row origin `tileYToY` come from the image and are
    parameters here. */
module Tiles {
  import opened Wrappers
  import opened JavaLang
  import opened Awt

  /** Tile columns `minTileX .. minTileX + numXTiles - 1` and tile rows
      `minTileY .. minTileY + numYTiles - 1`. */
  datatype TileGrid = TileGrid(minTileX: Int32, minTileY: Int32, numXTiles: Int32, numYTiles: Int32)

  /** The rectangle an image reports for tile `(ti, tj)`. */
  type TileRects = (int, int) -> Rectangle

  /** The exclusive end of the column range, computed as a Java int sum. */
  function MaxTileIndexX(g: TileGrid): Int32 {
    Wrap32(g.minTileX + g.numXTiles)
  }

  /** The exclusive end of the row range, computed as a Java int sum. */
  function MaxTileIndexY(g: TileGrid): Int32 {
    Wrap32(g.minTileY + g.numYTiles)
  }

  /** The columns of a grid: a non-negative count whose index range ends
      inside the int range. */
  predicate ColumnsWellFormed(g: TileGrid) {
    g.numXTiles >= 0 && InInt32(g.minTileX + g.numXTiles)
  }

  /** A grid whose tile counts are non-negative and whose index ranges end
      inside the int range, as for every image. */
  predicate WellFormed(g: TileGrid) {
    && ColumnsWellFormed(g)
    && g.numYTiles >= 0 && InInt32(g.minTileY + g.numYTiles)
  }

  /** A tile is counted when there is no bound (`null`) or the bound
      intersects it. */
  predicate Involved(bound: Option<Rectangle>, tile: Rectangle) {
    bound.None? || Intersects(bound.value, tile)
  }

  function Width(lo: int, hi: int): nat {
    if lo <= hi then hi - lo else 0
  }

  /** The cells counted for `bound`: those whose tile is involved. */
  function InvolvedAt(tileRect: TileRects, bound: Option<Rectangle>): (hit: (int, int) -> bool)
    ensures forall ti, tj :: hit(ti, tj) == Involved(bound, tileRect(ti, tj))
  {
    (ti: int, tj: int) => Involved(bound, tileRect(ti, tj))
  }

  // ---------------------------------------------------------------------
  // Counting, cell by cell, for any choice `hit` of counted cells
  // ---------------------------------------------------------------------

  /** The number of columns `ti` in `[lo, hi)` of row `tj` with `hit(ti, tj)`,
      counted in loop order. */
  function RowCount(hit: (int, int) -> bool, tj: int, lo: int, hi: int): (n: nat)
    ensures n <= Width(lo, hi)
    decreases hi - lo
  {
    if hi <= lo then 0
    else RowCount(hit, tj, lo, hi - 1) + (if hit(hi - 1, tj) then 1 else 0)
  }

  /** The number of cells with `hit` in rows `[loY, hiY)` and columns
      `[loX, hiX)`, counted row by row. */
  function GridCount(hit: (int, int) -> bool, loX: int, hiX: int, loY: int, hiY: int): (n: nat)
    ensures n <= Width(loX, hiX) * Width(loY, hiY)
    decreases hiY - loY
  {
    if hiY <= loY then 0
    else
      var n := GridCount(hit, loX, hiX, loY, hiY - 1) + RowCount(hit, hiY - 1, loX, hiX);
      assert Width(loX, hiX) * Width(loY, hiY) == Width(loX, hiX) * Width(loY, hiY - 1) + Width(loX, hiX);
      n
  }

  // ---------------------------------------------------------------------
  // The reference: the set of counted cells
  // ---------------------------------------------------------------------

  ghost function RowCells(hit: (int, int) -> bool, tj: int, lo: int, hi: int): set<(int, int)> {
    set ti: int | lo <= ti < hi && hit(ti, tj) :: (ti, tj)
  }

  ghost function Cells(hit: (int, int) -> bool, loX: int, hiX: int, loY: int, hiY: int): set<(int, int)> {
    set ti: int, tj: int | loX <= ti < hiX && loY <= tj < hiY && hit(ti, tj) :: (ti, tj)
  }

  lemma {:induction false} RowCountIsCardinality(hit: (int, int) -> bool, tj: int, lo: int, hi: int)
    ensures RowCount(hit, tj, lo, hi) == |RowCells(hit, tj, lo, hi)|
    decreases hi - lo
  {
    if hi <= lo {
      assert RowCells(hit, tj, lo, hi) == {};
    } else {
      RowCountIsCardinality(hit, tj, lo, hi - 1);
      var prev := RowCells(hit, tj, lo, hi - 1);
      if hit(hi - 1, tj) {
        assert RowCells(hit, tj, lo, hi) == prev + {(hi - 1, tj)};
      } else {
        assert RowCells(hit, tj, lo, hi) == prev;
      }
    }
  }

  /** Counting row by row finds exactly the cells with `hit`. */
  lemma {:induction false} GridCountIsCardinality(hit: (int, int) -> bool, loX: int, hiX: int, loY: int, hiY: int)
    ensures GridCount(hit, loX, hiX, loY, hiY) == |Cells(hit, loX, hiX, loY, hiY)|
    decreases hiY - loY
  {
    if hiY <= loY {
      assert Cells(hit, loX, hiX, loY, hiY) == {};
    } else {
      GridCountIsCardinality(hit, loX, hiX, loY, hiY - 1);
      RowCountIsCardinality(hit, hiY - 1, loX, hiX);
      var prev := Cells(hit, loX, hiX, loY, hiY - 1);
      var row := RowCells(hit, hiY - 1, loX, hiX);
      assert Cells(hit, loX, hiX, loY, hiY) == prev + row;
      assert prev * row == {};
    }
  }

  /** When every cell is hit, every cell of the range is counted. */
  lemma {:induction false} RowCountAll(hit: (int, int) -> bool, tj: int, lo: int, hi: int)
    requires forall ti :: hit(ti, tj)
    ensures RowCount(hit, tj, lo, hi) == Width(lo, hi)
    decreases hi - lo
  {
    if lo < hi {
      RowCountAll(hit, tj, lo, hi - 1);
    }
  }

  lemma {:induction false} GridCountAll(hit: (int, int) -> bool, loX: int, hiX: int, loY: int, hiY: int)
    requires forall ti, tj :: hit(ti, tj)
    ensures GridCount(hit, loX, hiX, loY, hiY) == Width(loX, hiX) * Width(loY, hiY)
    decreases hiY - loY
  {
    if loY < hiY {
      GridCountAll(hit, loX, hiX, loY, hiY - 1);
      RowCountAll(hit, hiY - 1, loX, hiX);
      assert Width(loX, hiX) * Width(loY, hiY) == Width(loX, hiX) * Width(loY, hiY - 1) + Width(loX, hiX);
    }
  }

  // ---------------------------------------------------------------------
  // The two operations
  // ---------------------------------------------------------------------

  /** What `getNumberOfInvolvedTiles` promises on a well-formed grid whose
      tile count is an int: the exact count of involved tiles, between 0 and
      the number of tiles, and all of them for a `null` bound. */
  lemma InvolvedTilesCount(g: TileGrid, tileRect: TileRects, bound: Option<Rectangle>)
    requires WellFormed(g) && InInt32(g.numXTiles * g.numYTiles)
    ensures var n := GridCount(InvolvedAt(tileRect, bound), g.minTileX, MaxTileIndexX(g), g.minTileY, MaxTileIndexY(g));
      && n == Wrap32(n)
      && n <= g.numXTiles * g.numYTiles
      && n == |Cells(InvolvedAt(tileRect, bound), g.minTileX, g.minTileX + g.numXTiles, g.minTileY, g.minTileY + g.numYTiles)|
      && (bound.None? ==> n == g.numXTiles * g.numYTiles)
  {
    var hit := InvolvedAt(tileRect, bound);
    GridCountIsCardinality(hit, g.minTileX, MaxTileIndexX(g), g.minTileY, MaxTileIndexY(g));
    if bound.None? {
      GridCountAll(hit, g.minTileX, MaxTileIndexX(g), g.minTileY, MaxTileIndexY(g));
    }
  }

  /** `getNumberOfInvolvedTiles(img, bound)`: the nested loops over rows and
      columns, with the int counter `nbTiles`. The result is the number of
      tiles of the grid that `bound` intersects (all of them for a `null`
      bound), which for a well-formed grid lies between 0 and
      `numXTiles * numYTiles` whenever that product is an int. */
  method NumberOfInvolvedTiles(g: TileGrid, tileRect: TileRects, bound: Option<Rectangle>) returns (nbTiles: Int32)
    ensures nbTiles == Wrap32(GridCount(InvolvedAt(tileRect, bound), g.minTileX, MaxTileIndexX(g), g.minTileY, MaxTileIndexY(g)))
    ensures WellFormed(g) && InInt32(g.numXTiles * g.numYTiles) ==>
      && 0 <= nbTiles <= g.numXTiles * g.numYTiles
      && nbTiles == |Cells(InvolvedAt(tileRect, bound), g.minTileX, g.minTileX + g.numXTiles, g.minTileY, g.minTileY + g.numYTiles)|
      && (bound.None? ==> nbTiles == g.numXTiles * g.numYTiles)
  {
    var hit := InvolvedAt(tileRect, bound);
    var maxTileIndexX := MaxTileIndexX(g);
    var maxTileIndexY := MaxTileIndexY(g);
    nbTiles := 0;
    var tj: int := g.minTileY;
    while tj < maxTileIndexY
      invariant g.minTileY <= tj
      invariant tj <= maxTileIndexY || tj == g.minTileY
      invariant nbTiles == Wrap32(GridCount(hit, g.minTileX, maxTileIndexX, g.minTileY, tj))
    {
      nbTiles := CountRowTiles(tileRect, bound, tj, g.minTileX, maxTileIndexX,
                               nbTiles, GridCount(hit, g.minTileX, maxTileIndexX, g.minTileY, tj));
      tj := tj + 1;
    }
    assert tj == g.minTileY || tj == maxTileIndexY;
    if WellFormed(g) && InInt32(g.numXTiles * g.numYTiles) {
      InvolvedTilesCount(g, tileRect, bound);
    }
  }

  /** The inner loop of `getNumberOfInvolvedTiles`: row `tj`, columns from
      `minTileX` up to `maxTileIndexX`, adding to the int counter
      `nbTiles`, which holds the wrapped value of `done` on entry. */
  method CountRowTiles(tileRect: TileRects, bound: Option<Rectangle>, tj: int, minTileX: Int32, maxTileIndexX: Int32,
                       nbTiles0: Int32, ghost done: nat)
    returns (nbTiles: Int32)
    requires nbTiles0 == Wrap32(done)
    ensures nbTiles == Wrap32(done + RowCount(InvolvedAt(tileRect, bound), tj, minTileX, maxTileIndexX))
  {
    var hit := InvolvedAt(tileRect, bound);
    nbTiles := nbTiles0;
    var ti: int := minTileX;
    while ti < maxTileIndexX
      invariant minTileX <= ti
      invariant ti <= maxTileIndexX || ti == minTileX
      invariant nbTiles == Wrap32(done + RowCount(hit, tj, minTileX, ti))
    {
      if Involved(bound, tileRect(ti, tj)) {
        Wrap32Increment(done + RowCount(hit, tj, minTileX, ti));
        nbTiles := Inc32(nbTiles);
      }
      ti := ti + 1;
    }
    assert ti == minTileX || ti == maxTileIndexX;
  }

  /** `getNumberOfInvolvedTilesOnXaxis(img, area)`: a copy of `area` moved
      to the top of the first tile row (`tileYToY(minTileY)`) is compared
      with the tiles of that row only. The copy is never `null`, so the
      source's `null` test is dead. When the columns are well formed (the
      rows play no part) the result is the number of involved tiles of the
      row, at most `numXTiles`. */
  method NumberOfInvolvedTilesOnXaxis(g: TileGrid, tileRect: TileRects, tileYToY: int -> Int32, area: Rectangle)
    returns (nbTiles: Int32)
    ensures var bound := area.(y := tileYToY(g.minTileY));
      nbTiles == Wrap32(RowCount(InvolvedAt(tileRect, Some(bound)), g.minTileY, g.minTileX, MaxTileIndexX(g)))
    ensures var bound := area.(y := tileYToY(g.minTileY));
      ColumnsWellFormed(g) ==>
      && 0 <= nbTiles <= g.numXTiles
      && nbTiles == |RowCells(InvolvedAt(tileRect, Some(bound)), g.minTileY, g.minTileX, g.minTileX + g.numXTiles)|
  {
    var maxTileIndexX := MaxTileIndexX(g);
    nbTiles := 0;
    var bound := area.(y := tileYToY(g.minTileY));
    var hit := InvolvedAt(tileRect, Some(bound));
    var tj := g.minTileY;
    var ti: int := g.minTileX;
    while ti < maxTileIndexX
      invariant g.minTileX <= ti
      invariant ti <= maxTileIndexX || ti == g.minTileX
      invariant nbTiles == Wrap32(RowCount(hit, tj, g.minTileX, ti))
    {
      if Involved(Some(bound), tileRect(ti, tj)) {
        Wrap32Increment(RowCount(hit, tj, g.minTileX, ti));
        nbTiles := Inc32(nbTiles);
      }
      ti := ti + 1;
    }
    assert RowCount(hit, tj, g.minTileX, ti) == RowCount(hit, tj, g.minTileX, maxTileIndexX);
    if ColumnsWellFormed(g) {
      RowCountIsCardinality(hit, tj, g.minTileX, maxTileIndexX);
    }
  }
}

=== FILE: wrappers.dfy ===
/** Optional values: `None` stands for a Java `null` reference or for an
    exception that ends an operation without a result. */
module Wrappers {

  datatype Option<+T> = None | Some(value: T) {

    /** The wrapped value, or `default` when there is none. */
    function GetOr(default: T): T {
      match this
      case Some(v) => v
      case None => default
    }
  }
}
